=== FILE: README.md ===
# Power-to-pulse engine

A Dafny model of the core shared by the three pulser scripts `house_pulser.py`,
`pv_pulser.py` and `wp_pulser.py`. Each script reads power over Modbus and
drives a Shelly relay so that its pulses count energy at a fixed number of
impulses per kWh. All three run the same loop body and differ only in how they
compose the net power. The model therefore has one engine (`Engine.Iteration`)
with a `Variant` parameter (`House`, `Pv`, `HeatPump`). The variant chooses the
composition and where the clock is read.

Modules:

- `Registers`: decoding of Modbus holding registers. `U32FromRegs` is written
  with Python's `<<` and `|` on non-negative integers, modelled arithmetically
  (`ShiftLeft`, `BitOr`). The three-phase sum is `Sum3`.
- `Composition`: the floor-then-cap clamp, the three net-power policies and
  `ComposeNet`, which returns `None` when the primary read fails.
- `Integrator`: the energy quantum (`Quantum`), whole-millisecond elapsed time
  (`ElapsedMs`), the harvest (`Harvest`), and integration over a sequence of
  slices (`Accumulate`).
- `Actuator`: `shelly_trigger_pulse` with its retry budget. `respond(i)` is
  the outcome of the i-th HTTP request.
- `Engine`: configuration, loop state, the scheduler step (`Schedule`) and one
  loop iteration (`Iteration`).
- `Runs`: finite runs of the loop (`Run`) and the properties that span many
  iterations: conservation, rate limiting and failure behaviour.

Time is a single integer clock in nanoseconds. Python's `monotonic_ns()` and
`monotonic()` read the same clock. The float-second gate
`now - last_trigger_ts >= MIN_TRIGGER_INTERVAL_S` is modelled in integer ns,
so the default 0.080 s is 80_000_000 ns.

Behaviour of the scripts worth noting, which the model follows:

- Invalid numbers in the configuration are not rejected at start-up.
  - Above 3_600_000_000 Imp/kWh the quantum is 0. Every iteration that
    obtains a reading while the held energy stays non-negative then raises a
    division by zero after adding its energy: event `QuantumFault`. With a
    negative cap the held energy can go negative instead, and the harvest
    guard then fails, so that iteration goes on to the scheduler with nothing
    new queued. Either way no pulse is ever earned
    (`Runs.ZeroQuantumNeverPulses`).
  - A negative power cap makes the clamp return that negative cap. The energy
    invariants are therefore stated under `Engine.Valid`.
  - A retry delay that `time.sleep` rejects (negative, or 2^63 ns or more)
    makes it raise on the first failed request that has a retry left. The
    trigger call then fails after that single request, whatever the retry
    count (`Actuator.Trigger`, `Actuator.SleepAccepts`).
- The clock is read at different points in the three scripts.
  - The house script reads it before `connect()`. A failed connect or house
    read therefore drops that interval from integration.
  - The PV and heat-pump scripts read it after `connect()`. A failed connect
    keeps the old reading, so the interval is integrated on the next
    successful iteration.
- The house script floors the heat-pump value at 0 and never caps it. The
  heat-pump script clamps it to `[0, MAX_POWER_W]`.
- Registers are 16-bit, so the `s < 0` floor in `read_u16_3sum` and the
  `val < 0` floor in the house `read_hp_power_w` never apply.

## Model

| member | source | states |
|---|---|---|
| Registers.BitOr | house_pulser.py:106-108 | Python's `a \| b` on non-negative integers is at least each operand and at most their sum |
| Registers.ShiftLeft | house_pulser.py:106-108 | no contract: Python's `x << k` on a non-negative integer, `x * 2^k` |
| Registers.OrIntoShifted | house_pulser.py:108-110 | or-ing a value below 2^k into `x << k` gives `x * 2^k` plus that value: combining a shifted word with a register is addition |
| Registers.U32FromRegs | house_pulser.py:105-110 | big word order gives `r0 * 65536 + r1`, the order "little" gives `r1 * 65536 + r0`, any other spelling is big; the result is below 2^32 |
| Registers.SplitRoundTrip | wp_pulser.py:69-73 | splitting a 32-bit value into high and low words and decoding it (big order, or little order with the words swapped) gives the value back |
| Registers.U32FromRegsInjective | wp_pulser.py:69-73 | in a given word order two register pairs decode to the same value exactly when they are equal |
| Registers.Sum3 | house_pulser.py:118-122 | the phase sum is never negative and, for 16-bit registers, is exactly `a + b + c` (the floor never applies) |
| Composition.ClampPower | house_pulser.py:211-215 | the result never exceeds the cap; with a non-negative cap it lies in `[0, cap]`, equals the input inside that range, 0 below it and the cap above it; a negative cap always wins |
| Composition.ClampIsNearest | pv_pulser.py:83-89 | with a non-negative cap the clamp returns the point of `[0, cap]` nearest to the input |
| Composition.ClampMonotone | wp_pulser.py:87-90 | clamping preserves the order of two power values |
| Composition.ClampIdempotent | house_pulser.py:212-215 | clamping an already clamped value changes nothing, for any cap |
| Composition.HouseHeatPumpW | house_pulser.py:138-142 | the house script's heat-pump power is the decoded 32-bit value, never negative |
| Composition.HeatPumpLoad | house_pulser.py:193-198 | the heat-pump load subtracted is the decoded 32-bit reading when the read succeeds and 0 W when it failed; never negative |
| Composition.WallboxLoad | house_pulser.py:200-208 | the wallbox load subtracted is `l1 + l2 + l3` when the wallbox is enabled and read, and 0 W when it is disabled or the read failed |
| Composition.HouseNetW | house_pulser.py:210-215 | with d = house total minus heat-pump load minus wallbox load: the result is d inside `[0, cap]`, the cap above it and 0 below it; it never exceeds the house total |
| Composition.FailedHeatPumpReadIsZero | house_pulser.py:194-198 | a failed heat-pump read gives the same net power as a heat pump reporting 0 W |
| Composition.FailedWallboxReadIsZero | house_pulser.py:202-206 | a failed wallbox read gives the same net power as a wallbox reporting 0 W |
| Composition.DisabledWallboxIgnored | house_pulser.py:201-208 | with `USE_WALLBOX` off, the wallbox reading has no effect on net power |
| Composition.HouseNetAntitoneInHeatPump | house_pulser.py:211 | a larger heat-pump load never raises the house net power |
| Composition.PvPowerW | pv_pulser.py:82-91 | PV power is `l1 + l2 + l3` when that is at most the cap, the cap above it, and always in `[0, cap]` for a non-negative cap |
| Composition.HeatPumpPowerW | wp_pulser.py:84-91 | heat-pump power is the decoded value when at most the cap, the cap above it, and in `[0, cap]` |
| Composition.ComposeNet | house_pulser.py:191-215 | a net figure exists exactly when the variant's primary read succeeded; it is the house net, PV power or heat-pump power of the readings for the respective variant, and lies in `[0, cap]` |
| Integrator.Quantum | house_pulser.py:69-72 | the quantum is `3_600_000_000 // max(1, rate)`, i.e. the largest q with `q * rate <= 3_600_000_000`; it is positive exactly when the rate is at most 3_600_000_000 |
| Integrator.DefaultQuanta | pv_pulser.py:42-44 | 100 Imp/kWh gives 36_000_000 Wms per pulse and 150 Imp/kWh gives 24_000_000 |
| Integrator.ElapsedMs | house_pulser.py:183-185 | the elapsed time is at least 1 ms, even for a zero or backward clock step, and otherwise is the floor of the ns difference in ms |
| Integrator.Harvest | house_pulser.py:222-226 | the harvest conserves energy (`residual + pulses * q == energy`), earns a non-negative number of pulses, and leaves `0 <= residual < q`; below one quantum nothing changes; a zero quantum raises once energy reaches it |
| Integrator.HarvestIsDivMod | house_pulser.py:223-226 | for held energy >= 0 the guarded harvest equals an unconditional divmod |
| Integrator.Feed | house_pulser.py:219-226 | one integration and harvest of a slice never loses pulses already earned, and leaves the residual in `[0, q)` whenever the held energy plus the slice's energy is non-negative |
| Integrator.Accumulate | house_pulser.py:180-226 | integrating and harvesting a sequence of slices in turn never decreases the pulses earned |
| Integrator.AccumulateConserves | house_pulser.py:219-226 | over any sequence of integrations, residual plus pulses times the quantum equals the starting value plus the total `net * dt` |
| Integrator.AccumulateBounded | pv_pulser.py:141-147 | with non-negative power and `dt >= 1`, the residual stays in `[0, q)` after every harvest |
| Integrator.AccumulateIsDivMod | wp_pulser.py:141-147 | from an empty accumulator, pulses and residual are exactly quotient and remainder of the total energy by the quantum |
| Integrator.SlicingIrrelevant | house_pulser.py:220-226 | two sequences with the same total energy yield the same pulses and residual, however the time is sliced |
| Integrator.TenPulsesScenario | house_pulser.py:72 | at 100 Imp/kWh, 3600 W for 100 s yields exactly 10 pulses and no residual, whether fed as ten 10 s slices or one 100 s slice |
| Actuator.Budget | house_pulser.py:148 | no contract: the number of requests `range(SHELLY_RETRIES + 1)` allows, 0 for a negative retry count |
| Actuator.TriggerFrom | pv_pulser.py:99-108 | from request k on, the loop succeeds iff some request in `k..retries` succeeds; it stops at the first success, uses the whole budget on failure, and sleeps once after every failed request but the last allowed |
| Actuator.Trigger | house_pulser.py:145-159 | at most `retries + 1` requests, returned at the first success; with a retry delay `time.sleep` accepts, success iff one of them succeeds, and failure only after all fail with `retries` delays; with a negative delay or one of 2^63 ns or more only the first request is made, success iff it succeeds, and nothing is slept; delays are requests minus 1 on success |
| Actuator.OneRetryScenario | wp_pulser.py:98-108 | with one retry: fail-then-succeed makes 2 requests and 1 delay; failing twice fails after 2 requests; a negative retry count makes no request and fails; a negative retry delay fails after one failed request |
| Actuator.OversizedDelayScenario | house_pulser.py:153-156 | with one retry and a retry delay of 2^63 ns or more, a first failure ends the call after one request, although the second would succeed |
| Engine.DefaultsValid | house_pulser.py:69-85 | the three scripts' defaults give a positive quantum and a non-negative cap |
| Engine.Initial | house_pulser.py:169-176 | no contract: the start-up state has no held energy, an empty queue, nothing sent, the clock read once and trigger time 0 |
| Engine.Due | house_pulser.py:234 | no contract: the scheduler's gate, a positive queue and at least the minimum interval since the last successful trigger |
| Engine.Schedule | house_pulser.py:233-249 | it pulses iff the queue is positive, the minimum interval has elapsed and the trigger succeeds; a pulse moves one credit from queue to sent and records the trigger time; otherwise nothing changes; the queue never goes negative |
| Engine.Iteration | pv_pulser.py:128-168 | a failed connect or primary read changes only the clock reading, and the PV/heat-pump scripts keep it on a failed connect; otherwise the energy integrated is the composed net power times the elapsed ms; it pulses only through the gate and stays idle only when nothing is owed or the interval has not elapsed; at most one pulse, recording its completion time; an actuator failure (due, trigger failed) keeps the queue and the trigger time; a zero quantum faults exactly when a reading leaves the held energy non-negative, and then only the clock and the added energy change |
| Engine.IterationIsFeed | house_pulser.py:219-238 | with a non-zero quantum, an iteration that obtains a reading holds the energy, and has queued plus sent pulses, that one `Feed` of the slice (composed net power, elapsed ms) gives |
| Engine.IterationConserves | house_pulser.py:219-238 | one iteration conserves energy: held energy plus (queued + sent) times the quantum grows by exactly the energy integrated |
| Engine.IterationCreditBounded | house_pulser.py:211-220 | the energy integrated in an iteration is between 0 and the cap times the elapsed ms |
| Engine.IterationKeepsInv | wp_pulser.py:133-168 | under a valid configuration an iteration keeps `0 <= energy < q` and a non-negative queue |
| Runs.Run | house_pulser.py:180-271 | a run of n iterations emits at most n pulses |
| Runs.RunCountsPulses | house_pulser.py:237-238 | the sent count grows by exactly the number of pulses emitted |
| Runs.RunConserves | house_pulser.py:180-249 | over any run, held energy plus (queued + sent) times the quantum grows by exactly the energy integrated |
| Runs.RunKeepsInv | pv_pulser.py:128-168 | under a valid configuration the invariant holds after any run |
| Runs.StartupRunIsDivMod | house_pulser.py:172-226 | from start-up, queued plus sent pulses are the quotient and held energy the remainder of the energy integrated by the quantum: no drift, no lost or duplicated pulse |
| Runs.RunIsAccumulate | house_pulser.py:180-238 | with a non-zero quantum a run ends with the held energy and pulses earned that `Accumulate` gives over the slices it integrated, and the energy credited is those slices' total |
| Runs.RunSlicesAdmissible | house_pulser.py:211-220 | under a non-negative cap every slice a run integrates has non-negative power and at least 1 ms |
| Runs.StartupRunsAgree | house_pulser.py:180-226 | under a valid configuration two runs from start-up that credit the same energy end with the same held energy and the same queued plus sent pulses, however the readings were sliced in time |
| Runs.RunRateLimited | house_pulser.py:233-239 | consecutive pulses complete at least the minimum interval apart, provided the clock does not run backwards within a trigger call |
| Runs.SpacedGap | pv_pulser.py:155-160 | in a rate-limited sequence of pulse times, pulse j is at least `(j - i)` minimum intervals after pulse i |
| Runs.FifthPulseScenario | wp_pulser.py:154-160 | with the 80 ms default, the fifth pulse completes at least 320 ms after the first |
| Runs.DeadActuatorKeepsCredit | pv_pulser.py:155-168 | if the relay always fails, no pulse is sent, the trigger time never moves and the queue never shrinks |
| Runs.OutageChangesNothing | pv_pulser.py:129-135 | if connect() fails on every iteration, energy, queue, sent count and trigger time stay as they were |
| Runs.ZeroQuantumNeverPulses | house_pulser.py:220-226 | with a zero quantum and an empty queue nothing is ever queued or sent, for any cap and any held energy |

## Left out

- Modbus I/O (`ModbusTcpClient`, `connect`, `read_holding_registers`, `isError`, `close`): each read is an `Option` input in `Readings` and `connect()` is a boolean in `Tick`.
- HTTP through `requests`: the relay's answer to the i-th request is the input `respond(i)`. Which exception a failed trigger raises is not modelled, only that it fails. The house script raises `RuntimeError` after zero requests, and the other two raise `None`, which Python turns into a `TypeError`.
- Environment parsing (`env_str`, `env_int`, `env_float`, `env_bool`): the configuration is the immutable `Engine.Config`. Non-numeric values, which make `int()` or `float()` raise at start-up, are out of scope.
- Floating point: the smoothed average (`avg_net`, `avg_power_w`) and the advisory `desired_interval` feed no control decision, except by the overflow in the next line. The float seconds of the trigger gate are integer ns, so float rounding is not modelled.
- Engine.Iteration: does not model the float overflow of the smoothed average. With a power cap below about -1.8 * 10^308 the clamp returns that cap, and converting it to float for the average (house_pulser.py:217, pv_pulser.py:138, wp_pulser.py:138) raises `OverflowError`. The catch-all handler then ends the iteration before integration and the scheduler, with only the clock reading changed. The model instead integrates the cap and runs the scheduler; such a cap is outside `Engine.Valid`, which the invariant lemmas assume.
- Actuator.Trigger: a NaN retry delay, on which `time.sleep` also raises, has no integer-ns counterpart, and the float rounding of the 2^63 ns limit is not modelled.
- Sleeps and their durations: the poll interval, the 0.2 s retry delay, the 1 s cool-down after a relay failure and the 2 s backoff after a bus failure. Only the number of retry delays is modelled, and whether `time.sleep` accepts the retry delay (`Config.retryDelayNs`).
- A negative or oversized poll interval makes the sleep at the end of every iteration raise. The catch-all handler then closes the client, after the iteration's state changes are already made, so it has no effect on the modelled state.
- Status and pulse log lines (`print`, `strftime`).
- The endless outer loop: runs are finite sequences of iterations (`Runs.Run`), and the catch-all handler is the `SourceFailure` and `QuantumFault` events.
- Registers are typed as 16-bit values, the range the bus client returns; other register contents are not modelled.

=== FILE: actuator.dfy ===
/**
 The relay trigger with its immediate retries: up to `retries + 1` HTTP
 requests, stopping at the first success, with a retry delay after every
 failed request except the last one allowed. The outcome of the i-th request
 (counting from 0) is supplied by the environment as `respond(i)`.
 */
module Actuator {

  /** How one trigger call ended: success, the requests made and the retry delays slept. */
  datatype Attempts = Attempts(ok: bool, requests: nat, delays: nat)

  /** Number of requests the loop `for attempt in range(retries + 1)` allows. */
  function Budget(retries: int): nat
  {
    if retries < 0 then 0 else retries + 1
  }

  /** The retry loop from request number `k` on. */
  function TriggerFrom(retries: int, respond: nat -> bool, k: nat): (r: Attempts)
    ensures r.requests <= Budget(retries - k)
    ensures r.ok <==> exists i: nat :: k <= i <= retries && respond(i)
    ensures r.ok ==> 1 <= r.requests && respond(k + r.requests - 1)
    ensures r.ok ==> forall i: nat :: k <= i < k + r.requests - 1 ==> !respond(i)
    ensures !r.ok ==> r.requests == Budget(retries - k)
    ensures r.ok ==> r.delays == r.requests - 1
    ensures !r.ok ==> r.delays == Budget(retries - k - 1)
    decreases retries + 1 - k
  {
    if retries < k then Attempts(false, 0, 0)
    else if respond(k) then Attempts(true, 1, 0)
    else
      var rest := TriggerFrom(retries, respond, k + 1);
      Attempts(rest.ok, rest.requests + 1, rest.delays + (if k < retries then 1 else 0))
  }

  /** Python's `time.sleep` rejects durations of 2^63 ns or more. */
  const SleepLimitNs: nat := 0x8000_0000_0000_0000

  /** A duration `time.sleep` accepts: non-negative and below the limit; any other raises. */
  predicate SleepAccepts(delayNs: int)
  {
    0 <= delayNs < SleepLimitNs
  }

  /**
   One trigger call. With a retry delay `time.sleep` accepts it succeeds
   exactly when one of the allowed requests succeeds, returning at the first
   success, and otherwise fails after using the whole budget (no request at
   all when `retries` is negative). With any other delay the first retry
   delay raises, so the call then ends with the first request, whatever
   `retries` allows, and sleeps nothing.
   */
  function Trigger(retries: int, retryDelayNs: int, respond: nat -> bool): (r: Attempts)
    ensures r.requests <= Budget(retries)
    ensures SleepAccepts(retryDelayNs) ==> (r.ok <==> exists i: nat :: i <= retries && respond(i))
    ensures SleepAccepts(retryDelayNs) && !r.ok ==> r.requests == Budget(retries) && r.delays == Budget(retries - 1)
    ensures !SleepAccepts(retryDelayNs) ==>
      (r.ok <==> 0 <= retries && respond(0)) && r.requests == (if retries < 0 then 0 else 1) && r.delays == 0
    ensures r.ok ==> 1 <= r.requests && respond(r.requests - 1)
    ensures r.ok ==> forall i: nat :: i < r.requests - 1 ==> !respond(i)
    ensures r.ok ==> r.delays == r.requests - 1
  {
    TriggerFrom(if !SleepAccepts(retryDelayNs) && 0 < retries then 0 else retries, respond, 0)
  }

  /**
   With the default of one retry, a first failure followed by a success is one
   delay; with a negative delay the first failure ends the call.
   */
  lemma OneRetryScenario()
    ensures Trigger(1, 200_000_000, i => i == 1) == Attempts(true, 2, 1)
    ensures Trigger(1, 200_000_000, i => false) == Attempts(false, 2, 1)
    ensures Trigger(-1, 200_000_000, i => true) == Attempts(false, 0, 0)
    ensures Trigger(1, -1, i => i == 1) == Attempts(false, 1, 0)
  {
  }

  /** A retry delay of 2^63 ns or more also ends the call at its first failure. */
  lemma OversizedDelayScenario(delayNs: int)
    requires SleepLimitNs <= delayNs
    ensures Trigger(1, delayNs, i => i == 1) == Attempts(false, 1, 0)
  {
  }
}

=== FILE: composition.dfy ===
/**
 Net-power composition: how each of the three pulsers turns the registers it
 read into one net power figure in W before integration.
 - House: house total minus heat pump minus wallbox; an optional load that
   failed to read, or a disabled wallbox, counts as 0 W.
 - Pv: the sum of the three PV phases.
 - HeatPump: the heat pump's 32-bit power value.
 Each result is floored at 0 and capped at the configured maximum.
 */
module Composition {
  import opened Optional
  import opened Registers

  /**
   Which pulser the engine runs. The house and heat-pump variants carry the
   configured word order of the heat pump's 32-bit register pair.
   */
  datatype Variant =
    | House(useWallbox: bool, hpWordOrder: string)
    | Pv
    | HeatPump(hpWordOrder: string)

  /**
   What one iteration obtained from the bus. `phases` is the three-phase block
   at the variant's primary address (house total or PV), `hp` the heat pump's
   register pair, `wallbox` the wallbox phases; None marks a failed read. A
   variant ignores the channels it does not read.
   */
  datatype Readings = Readings(phases: Option<Phases>, hp: Option<RegPair>, wallbox: Option<Phases>)

  /**
   The floor-then-cap the scripts apply: negative power becomes 0, power above
   `maxW` becomes `maxW` (so a negative `maxW` always wins).
   */
  function ClampPower(p: int, maxW: int): (r: int)
    ensures r <= maxW
    ensures 0 <= maxW ==> 0 <= r
    ensures 0 <= p <= maxW ==> r == p
    ensures maxW < p ==> r == maxW
    ensures p < 0 && 0 <= maxW ==> r == 0
    ensures maxW < 0 ==> r == maxW
  {
    var floored := if p < 0 then 0 else p;
    if floored > maxW then maxW else floored
  }

  function Distance(a: int, b: int): nat
  {
    if a <= b then b - a else a - b
  }

  /** For a non-negative cap the clamp picks the point of [0, maxW] nearest to `p`. */
  lemma ClampIsNearest(p: int, maxW: int, y: int)
    requires 0 <= maxW && 0 <= y <= maxW
    ensures Distance(ClampPower(p, maxW), p) <= Distance(y, p)
  {
  }

  /** Clamping never reverses the order of two power values. */
  lemma ClampMonotone(p: int, q: int, maxW: int)
    requires p <= q
    ensures ClampPower(p, maxW) <= ClampPower(q, maxW)
  {
  }

  /** Clamping an already clamped value changes nothing. */
  lemma ClampIdempotent(p: int, maxW: int)
    ensures ClampPower(ClampPower(p, maxW), maxW) == ClampPower(p, maxW)
  {
  }

  /** The house script's heat-pump reading: the decoded value, floored at 0 (never capped). */
  function HouseHeatPumpW(regs: RegPair, wordOrder: string): (w: int)
    ensures 0 <= w
    ensures w == U32FromRegs(regs.r0, regs.r1, wordOrder)
  {
    var val := U32FromRegs(regs.r0, regs.r1, wordOrder);
    if val < 0 then 0 else val
  }

  /** The heat pump's subtracted load: its reading, or 0 W when the read failed. */
  function HeatPumpLoad(hp: Option<RegPair>, wordOrder: string): (w: int)
    ensures 0 <= w
    ensures hp.None? ==> w == 0
    ensures hp.Some? ==> w == U32FromRegs(hp.value.r0, hp.value.r1, wordOrder)
  {
    match hp
    case Some(regs) => HouseHeatPumpW(regs, wordOrder)
    case None => 0
  }

  /** The wallbox's subtracted load: its phase sum, or 0 W when disabled or the read failed. */
  function WallboxLoad(useWallbox: bool, wallbox: Option<Phases>): (w: int)
    ensures 0 <= w
    ensures !useWallbox || wallbox.None? ==> w == 0
    ensures useWallbox && wallbox.Some? ==> w == wallbox.value.l1 + wallbox.value.l2 + wallbox.value.l3
  {
    match wallbox
    case Some(p) => if useWallbox then Sum3(p) else 0
    case None => 0
  }

  /** House net power: total consumption minus the heat pump and the wallbox, clamped. */
  function HouseNetW(useWallbox: bool, hpWordOrder: string, maxW: int,
                     house: Phases, hp: Option<RegPair>, wallbox: Option<Phases>): (r: int)
    ensures 0 <= maxW ==> 0 <= r <= maxW
    ensures 0 <= maxW ==> r <= Sum3(house)
    ensures hp.None? && (!useWallbox || wallbox.None?) ==> r == ClampPower(Sum3(house), maxW)
    ensures var d := Sum3(house) - HeatPumpLoad(hp, hpWordOrder) - WallboxLoad(useWallbox, wallbox);
      && (0 <= d <= maxW ==> r == d)
      && (maxW < d ==> r == maxW)
      && (d < 0 <= maxW ==> r == 0)
  {
    ClampPower(Sum3(house) - HeatPumpLoad(hp, hpWordOrder) - WallboxLoad(useWallbox, wallbox), maxW)
  }

  /** A heat-pump read that fails counts exactly like a heat pump reporting 0 W. */
  lemma FailedHeatPumpReadIsZero(useWallbox: bool, hpWordOrder: string, maxW: int,
                                 house: Phases, wallbox: Option<Phases>)
    ensures HouseNetW(useWallbox, hpWordOrder, maxW, house, None, wallbox)
         == HouseNetW(useWallbox, hpWordOrder, maxW, house, Some(RegPair(0, 0)), wallbox)
  {
  }

  /** A wallbox read that fails counts exactly like a wallbox reporting 0 W. */
  lemma FailedWallboxReadIsZero(useWallbox: bool, hpWordOrder: string, maxW: int,
                                house: Phases, hp: Option<RegPair>)
    ensures HouseNetW(useWallbox, hpWordOrder, maxW, house, hp, None)
         == HouseNetW(useWallbox, hpWordOrder, maxW, house, hp, Some(Phases(0, 0, 0)))
  {
  }

  /** With the wallbox disabled its reading has no effect on the net power. */
  lemma DisabledWallboxIgnored(hpWordOrder: string, maxW: int, house: Phases,
                               hp: Option<RegPair>, w1: Option<Phases>, w2: Option<Phases>)
    ensures HouseNetW(false, hpWordOrder, maxW, house, hp, w1) == HouseNetW(false, hpWordOrder, maxW, house, hp, w2)
  {
  }

  /** A larger heat-pump load never raises the house net power. */
  lemma HouseNetAntitoneInHeatPump(useWallbox: bool, hpWordOrder: string, maxW: int,
                                                      house: Phases, a: RegPair, b: RegPair,
                                                      wallbox: Option<Phases>)
    requires U32FromRegs(a.r0, a.r1, hpWordOrder) <= U32FromRegs(b.r0, b.r1, hpWordOrder)
    ensures HouseNetW(useWallbox, hpWordOrder, maxW, house, Some(b), wallbox)
         <= HouseNetW(useWallbox, hpWordOrder, maxW, house, Some(a), wallbox)
  {
  }

  /** PV power: the three phases summed and clamped. */
  function PvPowerW(maxW: int, pv: Phases): (r: int)
    ensures 0 <= maxW ==> 0 <= r <= maxW
    ensures Sum3(pv) <= maxW ==> r == pv.l1 + pv.l2 + pv.l3
    ensures maxW < Sum3(pv) ==> r == maxW
  {
    ClampPower(Sum3(pv), maxW)
  }

  /** Heat-pump script power: the decoded 32-bit value, clamped (unlike the house variant). */
  function HeatPumpPowerW(wordOrder: string, maxW: int, regs: RegPair): (r: int)
    ensures 0 <= maxW ==> 0 <= r <= maxW
    ensures U32FromRegs(regs.r0, regs.r1, wordOrder) <= maxW ==> r == U32FromRegs(regs.r0, regs.r1, wordOrder)
    ensures maxW < U32FromRegs(regs.r0, regs.r1, wordOrder) ==> r == maxW
  {
    ClampPower(U32FromRegs(regs.r0, regs.r1, wordOrder), maxW)
  }

  /** Whether the read the variant cannot do without succeeded. */
  predicate PrimaryRead(v: Variant, rd: Readings)
  {
    match v
    case House(_, _) => rd.phases.Some?
    case Pv => rd.phases.Some?
    case HeatPump(_) => rd.hp.Some?
  }

  /**
   The composition policy of each variant. None stands for a failed primary
   read, which aborts the iteration; optional loads never do.
   */
  function ComposeNet(v: Variant, maxW: int, rd: Readings): (r: Option<int>)
    ensures r.Some? <==> PrimaryRead(v, rd)
    ensures r.Some? && 0 <= maxW ==> 0 <= r.value <= maxW
    ensures r.Some? && v.House? ==>
      r.value == HouseNetW(v.useWallbox, v.hpWordOrder, maxW, rd.phases.value, rd.hp, rd.wallbox)
    ensures r.Some? && v.Pv? ==> r.value == PvPowerW(maxW, rd.phases.value)
    ensures r.Some? && v.HeatPump? ==> r.value == HeatPumpPowerW(v.hpWordOrder, maxW, rd.hp.value)
  {
    match v
    case House(useWallbox, order) =>
      if rd.phases.None? then None
      else Some(HouseNetW(useWallbox, order, maxW, rd.phases.value, rd.hp, rd.wallbox))
    case Pv =>
      if rd.phases.None? then None else Some(PvPowerW(maxW, rd.phases.value))
    case HeatPump(order) =>
      if rd.hp.None? then None else Some(HeatPumpPowerW(order, maxW, rd.hp.value))
  }
}

=== FILE: engine.dfy ===
/**
 One iteration of the control loop shared by the three pulsers: read the
 clock, read the bus, compose the net power, integrate and harvest, then
 offer at most one pulse to the relay.
 */
module Engine {
  import opened Optional
  import opened Composition
  import opened Integrator
  import opened Actuator

  /** The immutable configuration of one pulser; clock durations in ns. */
  datatype Config = Config(
    variant: Variant,
    impPerKwh: int,
    maxPowerW: int,
    minIntervalNs: int,
    retries: int,
    retryDelayNs: int)

  const HouseDefaults: Config := Config(House(true, "big"), 100, 25_000, 80_000_000, 1, 200_000_000)
  const PvDefaults: Config := Config(Pv, 150, 25_000, 80_000_000, 1, 200_000_000)
  const HeatPumpDefaults: Config := Config(HeatPump("big"), 100, 25_000, 80_000_000, 1, 200_000_000)

  /** A configuration under which the energy invariants are maintained. */
  predicate Valid(cfg: Config)
  {
    0 < Quantum(cfg.impPerKwh) && 0 <= cfg.maxPowerW
  }

  lemma DefaultsValid()
    ensures Valid(HouseDefaults) && Valid(PvDefaults) && Valid(HeatPumpDefaults)
  {
  }

  /**
   The loop's state: held energy in Wms, pulses owed, pulses sent, the clock
   reading of the last integration and the completion time of the last
   successful trigger (both in ns).
   */
  datatype State = State(energyWms: int, queue: int, sent: nat, lastNs: int, lastTriggerNs: int)

  /** The state at start-up, with the clock read once. */
  function Initial(startNs: int): State
  {
    State(0, 0, 0, startNs, 0)
  }

  /** After every iteration: held energy below one quantum, no negative queue. */
  predicate Inv(cfg: Config, s: State)
  {
    0 <= s.energyWms < Quantum(cfg.impPerKwh) && 0 <= s.queue
  }

  /**
   What the environment supplies to one iteration: whether connect()
   succeeded, the clock before integration, what the bus returned, the clock
   at the scheduler, the relay's answers and the clock after a successful
   trigger.
   */
  datatype Tick = Tick(
    connected: bool,
    nowNs: int,
    readings: Readings,
    gateNs: int,
    respond: nat -> bool,
    doneNs: int)

  datatype Event =
    | SourceFailure   // connect() or the primary read failed
    | QuantumFault    // the harvest divided by a zero quantum
    | Idle            // nothing owed, or the minimum interval has not elapsed
    | Pulsed          // one pulse emitted
    | ActuatorFailure // the trigger failed after all its retries

  /** The state after an iteration, what happened, and the energy integrated in it (Wms). */
  datatype Step = Step(state: State, event: Event, creditedWms: int)

  /** The scheduler's gate: something is owed and the minimum interval has elapsed. */
  predicate Due(s: State, gateNs: int, minIntervalNs: int)
  {
    0 < s.queue && minIntervalNs <= gateNs - s.lastTriggerNs
  }

  /**
   The scheduler step: when due, one trigger call; on success one credit moves
   from the queue to the sent count and the trigger time is recorded, on
   failure the credit stays queued.
   */
  function Schedule(cfg: Config, s: State, t: Tick): (r: Step)
    ensures r.event.Pulsed? <==> Due(s, t.gateNs, cfg.minIntervalNs) && Trigger(cfg.retries, cfg.retryDelayNs, t.respond).ok
    ensures r.event.ActuatorFailure? <==> Due(s, t.gateNs, cfg.minIntervalNs) && !Trigger(cfg.retries, cfg.retryDelayNs, t.respond).ok
    ensures r.event.Idle? <==> !Due(s, t.gateNs, cfg.minIntervalNs)
    ensures r.state.queue + r.state.sent == s.queue + s.sent
    ensures r.event.Pulsed? ==> r.state.queue == s.queue - 1 && r.state.lastTriggerNs == t.doneNs
    ensures !r.event.Pulsed? ==> r.state == s
    ensures r.state.energyWms == s.energyWms && r.state.lastNs == s.lastNs
    ensures 0 <= s.queue ==> 0 <= r.state.queue
    ensures r.creditedWms == 0
  {
    if Due(s, t.gateNs, cfg.minIntervalNs) then
      if Trigger(cfg.retries, cfg.retryDelayNs, t.respond).ok then
        Step(s.(queue := s.queue - 1, sent := s.sent + 1, lastTriggerNs := t.doneNs), Pulsed, 0)
      else Step(s, ActuatorFailure, 0)
    else Step(s, Idle, 0)
  }

  /**
   One loop iteration. The house pulser reads the clock before connect(), the
   PV and heat-pump pulsers after it, so only they keep the old reading when
   connect() fails. A failed primary read ends the iteration after the clock
   was taken. A zero quantum faults after the energy was added.
   */
  function Iteration(cfg: Config, s: State, t: Tick): (r: Step)
    // a failed connect() or primary read changes nothing but the clock reading
    ensures r.event.SourceFailure? <==> !t.connected || !PrimaryRead(cfg.variant, t.readings)
    ensures r.event.SourceFailure? ==>
      r.state == s.(lastNs := r.state.lastNs) && r.creditedWms == 0
    ensures r.state.lastNs == if !t.connected && !cfg.variant.House? then s.lastNs else t.nowNs
    // at most one pulse, only through the gate, and it records its time
    ensures s.sent <= r.state.sent <= s.sent + 1
    ensures r.state.sent == s.sent + 1 <==> r.event.Pulsed?
    ensures r.event.Pulsed? ==>
      cfg.minIntervalNs <= t.gateNs - s.lastTriggerNs && Trigger(cfg.retries, cfg.retryDelayNs, t.respond).ok
      && r.state.lastTriggerNs == t.doneNs
    ensures !r.event.Pulsed? ==> r.state.lastTriggerNs == s.lastTriggerNs
    ensures r.event.ActuatorFailure? ==> s.queue <= r.state.queue
    // the energy integrated is the composed net power held for the elapsed time
    ensures !r.event.SourceFailure? ==>
      r.creditedWms == ComposeNet(cfg.variant, cfg.maxPowerW, t.readings).value * ElapsedMs(s.lastNs, t.nowNs)
    // the converse of the gate: idle only when nothing is owed or it is too early
    ensures r.event.Idle? ==> r.state.queue <= 0 || t.gateNs - s.lastTriggerNs < cfg.minIntervalNs
    ensures r.event.ActuatorFailure? ==>
      cfg.minIntervalNs <= t.gateNs - s.lastTriggerNs && !Trigger(cfg.retries, cfg.retryDelayNs, t.respond).ok
    // a zero quantum faults exactly when a reading left the held energy non-negative
    ensures r.event.QuantumFault? <==>
      !r.event.SourceFailure? && Quantum(cfg.impPerKwh) == 0 && 0 <= s.energyWms + r.creditedWms
    ensures r.event.QuantumFault? ==>
      r.state == s.(lastNs := t.nowNs, energyWms := s.energyWms + r.creditedWms)
  {
    var clocked := s.(lastNs := t.nowNs);
    if !t.connected then
      Step(if cfg.variant.House? then clocked else s, SourceFailure, 0)
    else
      var dt := ElapsedMs(s.lastNs, t.nowNs);
      match ComposeNet(cfg.variant, cfg.maxPowerW, t.readings)
      case None => Step(clocked, SourceFailure, 0)
      case Some(net) =>
        var energy := s.energyWms + net * dt;
        match Harvest(energy, Quantum(cfg.impPerKwh))
        case None => Step(clocked.(energyWms := energy), QuantumFault, net * dt)
        case Some(y) =>
          var sc := Schedule(cfg, clocked.(energyWms := y.residual, queue := s.queue + y.pulses), t);
          Step(sc.state, sc.event, net * dt)
  }

  /**
   With a non-zero quantum, an iteration that obtains a reading integrates and
   harvests exactly one slice, the composed power for the elapsed time, as
   `Feed` does; pulses queued and sent count together as the pulses earned.
   */
  lemma {:induction false} IterationIsFeed(cfg: Config, s: State, t: Tick)
    requires 0 < Quantum(cfg.impPerKwh)
    requires t.connected && PrimaryRead(cfg.variant, t.readings)
    ensures var r := Iteration(cfg, s, t);
      Yield(r.state.energyWms, r.state.queue + r.state.sent)
      == Feed(Quantum(cfg.impPerKwh), Yield(s.energyWms, s.queue + s.sent),
              Slice(ComposeNet(cfg.variant, cfg.maxPowerW, t.readings).value, ElapsedMs(s.lastNs, t.nowNs)))
  {
  }

  lemma MulDistributes(a: int, b: int, q: int)
    ensures (a + b) * q == a * q + b * q
  {
  }

  lemma MulMonotone(a: int, b: int, d: int)
    requires a <= b && 0 <= d
    ensures a * d <= b * d
  {
  }

  /** Energy accounted for by a state, in Wms: held, plus one quantum per pulse queued or sent. */
  function Accounted(q: nat, s: State): int
  {
    s.energyWms + (s.queue + s.sent) * q
  }

  /** No energy is created or destroyed by an iteration: it is held, queued or sent. */
  lemma {:induction false} IterationConserves(cfg: Config, s: State, t: Tick)
    ensures Accounted(Quantum(cfg.impPerKwh), Iteration(cfg, s, t).state)
         == Accounted(Quantum(cfg.impPerKwh), s) + Iteration(cfg, s, t).creditedWms
  {
    var q := Quantum(cfg.impPerKwh);
    var r := Iteration(cfg, s, t);
    if t.connected && PrimaryRead(cfg.variant, t.readings) {
      var net := ComposeNet(cfg.variant, cfg.maxPowerW, t.readings).value;
      var dt := ElapsedMs(s.lastNs, t.nowNs);
      var h := Harvest(s.energyWms + net * dt, q);
      if h.Some? {
        var y := h.value;
        assert r.state.queue + r.state.sent == s.queue + y.pulses + s.sent;
        MulDistributes(s.queue + s.sent, y.pulses, q);
      }
    }
  }

  /**
   The energy integrated in one iteration is non-negative and at most the
   power cap held for the elapsed time.
   */
  lemma {:induction false} IterationCreditBounded(cfg: Config, s: State, t: Tick)
    requires 0 <= cfg.maxPowerW
    ensures 0 <= Iteration(cfg, s, t).creditedWms <= cfg.maxPowerW * ElapsedMs(s.lastNs, t.nowNs)
  {
    if t.connected && PrimaryRead(cfg.variant, t.readings) {
      var net := ComposeNet(cfg.variant, cfg.maxPowerW, t.readings).value;
      var dt := ElapsedMs(s.lastNs, t.nowNs);
      MulNonNegative(net, dt);
      MulMonotone(net, cfg.maxPowerW, dt);
    }
  }

  /** Under a valid configuration every iteration keeps the invariant. */
  lemma {:induction false} IterationKeepsInv(cfg: Config, s: State, t: Tick)
    requires Valid(cfg) && Inv(cfg, s)
    ensures Inv(cfg, Iteration(cfg, s, t).state)
  {
    if t.connected && PrimaryRead(cfg.variant, t.readings) {
      var net := ComposeNet(cfg.variant, cfg.maxPowerW, t.readings).value;
      MulNonNegative(net, ElapsedMs(s.lastNs, t.nowNs));
    }
  }
}

=== FILE: integrator.dfy ===
/**
 The energy integrator: exact integer accumulation of power times elapsed
 time in watt-milliseconds, and the harvest that turns whole quanta of
 accumulated energy into pulse credits while carrying the remainder forward.
 */
module Integrator {
  import opened Optional

  /** Watt-milliseconds in one kilowatt-hour. */
  const WmsPerKwh: nat := 3_600_000_000

  /** Nanoseconds in one millisecond. */
  const NsPerMs: nat := 1_000_000

  /**
   Energy represented by one pulse, in Wms, for a configured pulses-per-kWh
   rate; a rate below 1 is read as 1. A rate above one pulse per Wms gives 0.
   */
  function Quantum(impPerKwh: int): (q: nat)
    ensures 0 < q <==> impPerKwh <= WmsPerKwh
    ensures 0 < impPerKwh ==> q * impPerKwh <= WmsPerKwh < (q + 1) * impPerKwh
    ensures impPerKwh <= 1 ==> q == WmsPerKwh
  {
    var imp := if impPerKwh < 1 then 1 else impPerKwh;
    WmsPerKwh / imp
  }

  /** The default quanta of the three pulsers: 100 Imp/kWh and 150 Imp/kWh. */
  lemma DefaultQuanta()
    ensures Quantum(100) == 36_000_000
    ensures Quantum(150) == 24_000_000
  {
  }

  /**
   Whole milliseconds between two clock readings in ns, never less than 1:
   a zero or backwards clock step still integrates one millisecond.
   Python's `//` floors; for the positive divisor here so does Dafny's `/`.
   */
  function ElapsedMs(lastNs: int, nowNs: int): (dt: int)
    ensures 1 <= dt
    ensures NsPerMs <= nowNs - lastNs ==> dt * NsPerMs <= nowNs - lastNs < (dt + 1) * NsPerMs
    ensures nowNs - lastNs < 2 * NsPerMs ==> dt == 1
  {
    var whole := (nowNs - lastNs) / NsPerMs;
    if whole < 1 then 1 else whole
  }

  /** What a harvest leaves behind: the energy still held and the pulses earned. */
  datatype Yield = Yield(residual: int, pulses: int)

  /**
   The harvest: when at least one quantum of energy is held, move all whole
   quanta into pulse credits. None models the division by a zero quantum,
   which raises as soon as the held energy reaches that (zero) threshold.
   */
  function Harvest(energy: int, q: nat): (r: Option<Yield>)
    ensures r.None? <==> q == 0 && 0 <= energy
    ensures r.Some? ==> r.value.residual + r.value.pulses * q == energy
    ensures r.Some? ==> 0 <= r.value.pulses
    ensures r.Some? && 0 <= energy ==> 0 <= r.value.residual < q
    ensures energy < q ==> r == Some(Yield(energy, 0))
  {
    if energy >= q then
      if q == 0 then None
      else
        var add := energy / q;
        Some(Yield(energy - add * q, add))
    else Some(Yield(energy, 0))
  }

  /** Quotient and remainder are unique: the basis of every "no drift" argument. */
  lemma {:induction false} DivModUnique(q: int, a: int, r: int, b: int, s: int)
    requires 0 < q && 0 <= r < q && 0 <= s < q
    requires a * q + r == b * q + s
    ensures a == b && r == s
  {
    if a < b {
      MulStep(a, b, q);
    } else if b < a {
      MulStep(b, a, q);
    }
  }

  /** A split into whole quanta and a remainder below q is the divmod. */
  lemma QuotientFromSplit(q: int, p: int, r: int, e: int)
    requires 0 < q && 0 <= p && 0 <= r < q && p * q + r == e
    ensures 0 <= e && p == e / q && r == e % q
  {
    MulNonNegative(p, q);
    DivModUnique(q, p, r, e / q, e % q);
  }

  lemma MulStep(a: int, b: int, q: int)
    requires a < b && 0 < q
    ensures a * q + q <= b * q
  {
    var d := b - a - 1;
    MulNonNegative(d, q);
    assert b * q == a * q + d * q + q;
  }

  lemma MulNonNegative(x: int, y: int)
    requires 0 <= x && 0 <= y
    ensures 0 <= x * y
  {
  }

  /** The `>=` guard is only a shortcut: for held energy >= 0 the harvest is plain divmod. */
  lemma HarvestIsDivMod(energy: int, q: nat)
    requires 0 < q && 0 <= energy
    ensures Harvest(energy, q) == Some(Yield(energy % q, energy / q))
  {
  }

  /** One integration call: power in W held for a number of ms. */
  datatype Slice = Slice(netW: int, dtMs: int)

  /** The integration contract: power already clamped non-negative, at least 1 ms. */
  predicate Admissible(steps: seq<Slice>)
  {
    forall i :: 0 <= i < |steps| ==> 0 <= steps[i].netW && 1 <= steps[i].dtMs
  }

  /** Total energy of a sequence of slices in Wms. */
  function Energy(steps: seq<Slice>): int
  {
    if |steps| == 0 then 0 else steps[0].netW * steps[0].dtMs + Energy(steps[1..])
  }

  /** Integrates and harvests one slice, adding the pulses earned to the running total. */
  function Feed(q: nat, y: Yield, step: Slice): (r: Yield)
    requires 0 < q
    ensures y.pulses <= r.pulses
    ensures 0 <= y.residual + step.netW * step.dtMs ==> 0 <= r.residual < q
  {
    var h := Harvest(y.residual + step.netW * step.dtMs, q).value;
    Yield(h.residual, y.pulses + h.pulses)
  }

  /** Integrates and harvests every slice in turn, adding up the pulses earned. */
  function Accumulate(q: nat, y: Yield, steps: seq<Slice>): (r: Yield)
    requires 0 < q
    ensures y.pulses <= r.pulses
    decreases |steps|
  {
    if |steps| == 0 then y else Accumulate(q, Feed(q, y, steps[0]), steps[1..])
  }

  /** Energy a running total accounts for: what is held plus one quantum per pulse. */
  function Held(q: nat, y: Yield): int
  {
    y.residual + y.pulses * q
  }

  lemma FeedConserves(q: nat, y: Yield, step: Slice)
    requires 0 < q
    ensures Held(q, Feed(q, y, step)) == Held(q, y) + step.netW * step.dtMs
  {
    var h := Harvest(y.residual + step.netW * step.dtMs, q).value;
    assert (y.pulses + h.pulses) * q == y.pulses * q + h.pulses * q;
  }

  /** Conservation: the energy put in equals pulses times the quantum plus what is left. */
  lemma {:induction false} AccumulateConserves(q: nat, y: Yield, steps: seq<Slice>)
    requires 0 < q
    ensures Held(q, Accumulate(q, y, steps)) == Held(q, y) + Energy(steps)
    decreases |steps|
  {
    if |steps| > 0 {
      FeedConserves(q, y, steps[0]);
      AccumulateConserves(q, Feed(q, y, steps[0]), steps[1..]);
    }
  }

  /** With admissible slices the residual stays in [0, q) after every harvest. */
  lemma {:induction false} AccumulateBounded(q: nat, y: Yield, steps: seq<Slice>)
    requires 0 < q && 0 <= y.residual < q && Admissible(steps)
    ensures 0 <= Accumulate(q, y, steps).residual < q
    decreases |steps|
  {
    if |steps| > 0 {
      assert 0 <= steps[0].netW * steps[0].dtMs;
      AccumulateBounded(q, Feed(q, y, steps[0]), steps[1..]);
    }
  }

  /** From an empty accumulator the outcome is exactly divmod of the total energy. */
  lemma {:induction false} AccumulateIsDivMod(q: nat, steps: seq<Slice>)
    requires 0 < q && Admissible(steps)
    ensures 0 <= Energy(steps)
    ensures Accumulate(q, Yield(0, 0), steps) == Yield(Energy(steps) % q, Energy(steps) / q)
  {
    AccumulateConserves(q, Yield(0, 0), steps);
    AccumulateBounded(q, Yield(0, 0), steps);
    var r := Accumulate(q, Yield(0, 0), steps);
    QuotientFromSplit(q, r.pulses, r.residual, Energy(steps));
  }

  /** How the energy is sliced in time does not matter, only its total. */
  lemma {:induction false} SlicingIrrelevant(q: nat, a: seq<Slice>, b: seq<Slice>)
    requires 0 < q && Admissible(a) && Admissible(b) && Energy(a) == Energy(b)
    ensures Accumulate(q, Yield(0, 0), a) == Accumulate(q, Yield(0, 0), b)
  {
    AccumulateIsDivMod(q, a);
    AccumulateIsDivMod(q, b);
  }

  /** n copies of one slice. */
  function Repeat(s: Slice, n: nat): (steps: seq<Slice>)
    ensures |steps| == n
    ensures forall i :: 0 <= i < n ==> steps[i] == s
  {
    if n == 0 then [] else [s] + Repeat(s, n - 1)
  }

  lemma {:induction false} EnergyOfRepeat(s: Slice, n: nat)
    ensures Energy(Repeat(s, n)) == n * (s.netW * s.dtMs)
  {
    if n > 0 {
      assert Repeat(s, n)[1..] == Repeat(s, n - 1);
      EnergyOfRepeat(s, n - 1);
    }
  }

  /**
   At 100 Imp/kWh, 3600 W held for 100 s in total is exactly 10 pulses with
   nothing left over, whether fed as ten 10 s slices or one 100 s slice.
   */
  lemma TenPulsesScenario(q: nat, tenSlices: seq<Slice>, oneSlice: seq<Slice>)
    requires q == Quantum(100)
    requires tenSlices == Repeat(Slice(3600, 10_000), 10) && oneSlice == [Slice(3600, 100_000)]
    ensures Accumulate(q, Yield(0, 0), tenSlices) == Yield(0, 10)
    ensures Accumulate(q, Yield(0, 0), oneSlice) == Yield(0, 10)
  {
    DefaultQuanta();
    EnergyOfRepeat(Slice(3600, 10_000), 10);
    AccumulateIsDivMod(q, tenSlices);
    assert Energy(oneSlice) == 360_000_000;
    AccumulateIsDivMod(q, oneSlice);
  }
}

=== FILE: optional.dfy ===
/** A value that a bus read may or may not have produced. */
module Optional {

  datatype Option<+T> = None | Some(value: T)
}

=== FILE: registers.dfy ===
/**
 Decoding of Modbus holding registers: the 32-bit word combination used for
 the heat-pump power and the three-phase sum used for the house, wallbox and
 PV blocks. Python's `<<` and `|` on non-negative integers are modelled
 arithmetically, so the decoder is stated exactly as the scripts write it.
 */
module Registers {

  /** One 16-bit holding register as the bus client returns it. */
  type U16 = x: int | 0 <= x < 0x1_0000

  /** Number of distinct values of one register. */
  const Word: nat := 0x1_0000

  /** Two consecutive registers, in the order they were read. */
  datatype RegPair = RegPair(r0: U16, r1: U16)

  /** Three consecutive registers holding per-phase power (L1, L2, L3) in W. */
  datatype Phases = Phases(l1: U16, l2: U16, l3: U16)

  function Pow2(k: nat): (p: nat)
    ensures 1 <= p
  {
    if k == 0 then 1 else 2 * Pow2(k - 1)
  }

  /** Python's `x << k` for a non-negative `x`. */
  function ShiftLeft(x: nat, k: nat): nat
  {
    x * Pow2(k)
  }

  /** Python's `a | b` for non-negative integers, one bit at a time from the bottom. */
  function BitOr(a: nat, b: nat): (r: nat)
    ensures a <= r && b <= r && r <= a + b
    decreases a + b
  {
    if a == 0 then b
    else if b == 0 then a
    else 2 * BitOr(a / 2, b / 2) + (if a % 2 == 1 || b % 2 == 1 then 1 else 0)
  }

  /** Or-ing a value below 2^k into a value shifted left by k is addition. */
  lemma {:induction false} OrIntoShifted(x: nat, lo: nat, k: nat)
    requires lo < Pow2(k)
    ensures BitOr(ShiftLeft(x, k), lo) == x * Pow2(k) + lo
  {
    if k == 0 {
      assert lo == 0;
    } else if x == 0 || lo == 0 {
    } else {
      var a := x * Pow2(k);
      assert a == 2 * (x * Pow2(k - 1));
      assert a / 2 == x * Pow2(k - 1) && a % 2 == 0;
      assert lo / 2 < Pow2(k - 1);
      OrIntoShifted(x, lo / 2, k - 1);
      assert BitOr(a, lo) == 2 * BitOr(x * Pow2(k - 1), lo / 2) + lo % 2;
    }
  }

  lemma Pow2Sixteen()
    ensures Pow2(16) == Word
  {
    assert Pow2(1) == 2 && Pow2(2) == 4 && Pow2(3) == 8 && Pow2(4) == 16;
    assert Pow2(5) == 32 && Pow2(6) == 64 && Pow2(7) == 128 && Pow2(8) == 256;
    assert Pow2(9) == 512 && Pow2(10) == 1024 && Pow2(11) == 2048 && Pow2(12) == 4096;
    assert Pow2(13) == 8192 && Pow2(14) == 16384 && Pow2(15) == 32768;
  }

  /**
   The 32-bit value held in two registers. Word order "little" puts the
   second register on top; every other spelling of the order is big-endian.
   */
  function U32FromRegs(r0: U16, r1: U16, wordOrder: string): (v: nat)
    ensures wordOrder == "little" ==> v == r1 * Word + r0
    ensures wordOrder != "little" ==> v == r0 * Word + r1
    ensures v < Word * Word
  {
    Pow2Sixteen();
    if wordOrder == "little" then
      OrIntoShifted(r1, r0, 16);
      BitOr(ShiftLeft(r1, 16), r0)
    else
      OrIntoShifted(r0, r1, 16);
      BitOr(ShiftLeft(r0, 16), r1)
  }

  /** Splits a 32-bit value into its high and low registers. */
  function SplitWords(v: nat): (regs: RegPair)
    requires v < Word * Word
    ensures regs.r0 * Word + regs.r1 == v
  {
    RegPair(v / Word, v % Word)
  }

  /** Splitting a value and decoding it in either word order gives it back. */
  lemma SplitRoundTrip(v: nat)
    requires v < Word * Word
    ensures U32FromRegs(SplitWords(v).r0, SplitWords(v).r1, "big") == v
    ensures U32FromRegs(SplitWords(v).r1, SplitWords(v).r0, "little") == v
  {
  }

  /** Two register pairs decode to the same value exactly when they are equal. */
  lemma {:induction false} U32FromRegsInjective(a: RegPair, b: RegPair, wordOrder: string)
    ensures U32FromRegs(a.r0, a.r1, wordOrder) == U32FromRegs(b.r0, b.r1, wordOrder) <==> a == b
  {
    if U32FromRegs(a.r0, a.r1, wordOrder) == U32FromRegs(b.r0, b.r1, wordOrder) {
      if wordOrder == "little" {
        DigitsUnique(a.r1, a.r0, b.r1, b.r0);
      } else {
        DigitsUnique(a.r0, a.r1, b.r0, b.r1);
      }
    }
  }

  lemma {:induction false} DigitsUnique(h1: U16, l1: U16, h2: U16, l2: U16)
    requires h1 * Word + l1 == h2 * Word + l2
    ensures h1 == h2 && l1 == l2
  {
  }

  /**
   The phase sum of a three-register block, floored at zero. With 16-bit
   registers the floor never applies: the result is the plain sum.
   */
  function Sum3(p: Phases): (s: int)
    ensures 0 <= s
    ensures s == p.l1 + p.l2 + p.l3
    ensures s < 3 * Word
  {
    var total := p.l1 + p.l2 + p.l3;
    if total < 0 then 0 else total
  }
}

=== FILE: runs.dfy ===
/**
 Runs of the control loop: a sequence of iterations from a given state, with
 the completion time of every emitted pulse and the total energy integrated.
 */
module Runs {
  import opened Composition
  import opened Integrator
  import opened Actuator
  import opened Engine

  /** Final state, completion times of the pulses emitted, energy integrated (Wms). */
  datatype Trace = Trace(final: State, pulseTimes: seq<int>, creditedWms: int)

  /** The iterations of a run in turn; at most one pulse per iteration. */
  function Run(cfg: Config, s: State, ticks: seq<Tick>): (tr: Trace)
    ensures |tr.pulseTimes| <= |ticks|
    decreases |ticks|
  {
    if |ticks| == 0 then Trace(s, [], 0)
    else
      var st := Iteration(cfg, s, ticks[0]);
      var rest := Run(cfg, st.state, ticks[1..]);
      Trace(rest.final,
            (if st.event.Pulsed? then [ticks[0].doneNs] else []) + rest.pulseTimes,
            st.creditedWms + rest.creditedWms)
  }

  /** Every emitted pulse is counted as sent, and nothing else is. */
  lemma {:induction false} RunCountsPulses(cfg: Config, s: State, ticks: seq<Tick>)
    ensures Run(cfg, s, ticks).final.sent == s.sent + |Run(cfg, s, ticks).pulseTimes|
    decreases |ticks|
  {
    if |ticks| > 0 {
      RunCountsPulses(cfg, Iteration(cfg, s, ticks[0]).state, ticks[1..]);
    }
  }

  /**
   Conservation over a whole run: the energy integrated equals the pulses
   queued or sent times the quantum plus the change in held energy, exactly.
   */
  lemma {:induction false} RunConserves(cfg: Config, s: State, ticks: seq<Tick>)
    ensures Accounted(Quantum(cfg.impPerKwh), Run(cfg, s, ticks).final)
         == Accounted(Quantum(cfg.impPerKwh), s) + Run(cfg, s, ticks).creditedWms
    decreases |ticks|
  {
    if |ticks| > 0 {
      var st := Iteration(cfg, s, ticks[0]);
      IterationConserves(cfg, s, ticks[0]);
      RunConserves(cfg, st.state, ticks[1..]);
    }
  }

  /** Under a valid configuration the invariant holds after every run. */
  lemma {:induction false} RunKeepsInv(cfg: Config, s: State, ticks: seq<Tick>)
    requires Valid(cfg) && Inv(cfg, s)
    ensures Inv(cfg, Run(cfg, s, ticks).final)
    decreases |ticks|
  {
    if |ticks| > 0 {
      IterationKeepsInv(cfg, s, ticks[0]);
      RunKeepsInv(cfg, Iteration(cfg, s, ticks[0]).state, ticks[1..]);
    }
  }

  /**
   From start-up the pulses owed or sent are exactly the whole quanta of the
   energy integrated, and the held energy is the remainder: no pulse is lost
   or duplicated and nothing drifts.
   */
  lemma {:induction false} StartupRunIsDivMod(cfg: Config, startNs: int, ticks: seq<Tick>)
    requires Valid(cfg)
    ensures var tr := Run(cfg, Initial(startNs), ticks);
      && 0 <= tr.creditedWms
      && tr.final.queue + tr.final.sent == tr.creditedWms / Quantum(cfg.impPerKwh)
      && tr.final.energyWms == tr.creditedWms % Quantum(cfg.impPerKwh)
  {
    var tr := Run(cfg, Initial(startNs), ticks);
    RunConserves(cfg, Initial(startNs), ticks);
    assert Accounted(Quantum(cfg.impPerKwh), Initial(startNs)) == 0;
    RunKeepsInv(cfg, Initial(startNs), ticks);
    QuotientFromSplit(Quantum(cfg.impPerKwh), tr.final.queue + tr.final.sent,
                      tr.final.energyWms, tr.creditedWms);
  }

  /** The slices a run integrates: one per iteration that obtained a reading. */
  function RunSlices(cfg: Config, s: State, ticks: seq<Tick>): seq<Slice>
    decreases |ticks|
  {
    if |ticks| == 0 then []
    else
      var st := Iteration(cfg, s, ticks[0]);
      var here := if st.event.SourceFailure? then [] else
        [Slice(ComposeNet(cfg.variant, cfg.maxPowerW, ticks[0].readings).value, ElapsedMs(s.lastNs, ticks[0].nowNs))];
      here + RunSlices(cfg, st.state, ticks[1..])
  }

  /**
   With a non-zero quantum a run is the integrator's accumulation over the
   slices it integrates: held energy and pulses earned (queued or sent) end
   as `Accumulate` leaves them, and the energy credited is those slices' energy.
   */
  lemma {:induction false} RunIsAccumulate(cfg: Config, s: State, ticks: seq<Tick>)
    requires 0 < Quantum(cfg.impPerKwh)
    ensures var tr := Run(cfg, s, ticks);
      Yield(tr.final.energyWms, tr.final.queue + tr.final.sent)
      == Accumulate(Quantum(cfg.impPerKwh), Yield(s.energyWms, s.queue + s.sent), RunSlices(cfg, s, ticks))
    ensures Energy(RunSlices(cfg, s, ticks)) == Run(cfg, s, ticks).creditedWms
    decreases |ticks|
  {
    if |ticks| > 0 {
      var q := Quantum(cfg.impPerKwh);
      var t := ticks[0];
      var st := Iteration(cfg, s, t);
      var rest := RunSlices(cfg, st.state, ticks[1..]);
      RunIsAccumulate(cfg, st.state, ticks[1..]);
      if st.event.SourceFailure? {
        assert RunSlices(cfg, s, ticks) == rest;
      } else {
        var slice := Slice(ComposeNet(cfg.variant, cfg.maxPowerW, t.readings).value, ElapsedMs(s.lastNs, t.nowNs));
        assert RunSlices(cfg, s, ticks) == [slice] + rest;
        assert ([slice] + rest)[1..] == rest;
        IterationIsFeed(cfg, s, t);
      }
    }
  }

  /** Under a non-negative power cap every slice a run integrates is admissible. */
  lemma {:induction false} RunSlicesAdmissible(cfg: Config, s: State, ticks: seq<Tick>)
    requires 0 <= cfg.maxPowerW
    ensures Admissible(RunSlices(cfg, s, ticks))
    decreases |ticks|
  {
    if |ticks| > 0 {
      var t := ticks[0];
      var st := Iteration(cfg, s, t);
      var rest := RunSlices(cfg, st.state, ticks[1..]);
      RunSlicesAdmissible(cfg, st.state, ticks[1..]);
      if !st.event.SourceFailure? {
        var slice := Slice(ComposeNet(cfg.variant, cfg.maxPowerW, t.readings).value, ElapsedMs(s.lastNs, t.nowNs));
        assert RunSlices(cfg, s, ticks) == [slice] + rest;
        assert 0 <= slice.netW && 1 <= slice.dtMs;
      }
    }
  }

  /**
   How the energy arrives does not matter: under a valid configuration two
   runs from start-up that credit the same energy, however their readings
   were sliced in time, end with the same held energy and pulses earned.
   */
  lemma {:induction false} StartupRunsAgree(cfg: Config, startA: int, a: seq<Tick>, startB: int, b: seq<Tick>)
    requires Valid(cfg)
    ensures var ra := Run(cfg, Initial(startA), a);
      var rb := Run(cfg, Initial(startB), b);
      ra.creditedWms == rb.creditedWms ==>
        ra.final.energyWms == rb.final.energyWms
        && ra.final.queue + ra.final.sent == rb.final.queue + rb.final.sent
  {
    if Run(cfg, Initial(startA), a).creditedWms == Run(cfg, Initial(startB), b).creditedWms {
      var q := Quantum(cfg.impPerKwh);
      RunIsAccumulate(cfg, Initial(startA), a);
      RunIsAccumulate(cfg, Initial(startB), b);
      RunSlicesAdmissible(cfg, Initial(startA), a);
      RunSlicesAdmissible(cfg, Initial(startB), b);
      SlicingIrrelevant(q, RunSlices(cfg, Initial(startA), a), RunSlices(cfg, Initial(startB), b));
    }
  }

  /** Every time in `ts` is at least `m` after the one before it, the first `m` after `t0`. */
  predicate SpacedFrom(t0: int, ts: seq<int>, m: int)
    decreases |ts|
  {
    |ts| == 0 || (m <= ts[0] - t0 && SpacedFrom(ts[0], ts[1..], m))
  }

  /** The clock never runs backwards within an iteration's trigger call. */
  predicate TriggerClockMonotone(ticks: seq<Tick>)
  {
    forall i :: 0 <= i < |ticks| ==> ticks[i].gateNs <= ticks[i].doneNs
  }

  /**
   Rate limiting: consecutive pulses of a run complete at least the minimum
   interval apart, and the first one at least that long after the trigger
   time the run started from.
   */
  lemma {:induction false} RunRateLimited(cfg: Config, s: State, ticks: seq<Tick>)
    requires TriggerClockMonotone(ticks)
    ensures SpacedFrom(s.lastTriggerNs, Run(cfg, s, ticks).pulseTimes, cfg.minIntervalNs)
    decreases |ticks|
  {
    if |ticks| > 0 {
      var st := Iteration(cfg, s, ticks[0]);
      var rest := Run(cfg, st.state, ticks[1..]);
      assert TriggerClockMonotone(ticks[1..]) by {
        forall i | 0 <= i < |ticks[1..]|
          ensures ticks[1..][i].gateNs <= ticks[1..][i].doneNs
        {
          assert ticks[1..][i] == ticks[i + 1];
        }
      }
      RunRateLimited(cfg, st.state, ticks[1..]);
      if st.event.Pulsed? {
        assert ticks[0].gateNs <= ticks[0].doneNs;
        assert ([ticks[0].doneNs] + rest.pulseTimes)[1..] == rest.pulseTimes;
      } else {
        assert [] + rest.pulseTimes == rest.pulseTimes;
      }
    }
  }

  /** A spaced sequence's later element is at least `m` per step after an earlier one. */
  lemma {:induction false} SpacedGap(t0: int, ts: seq<int>, m: int, i: nat, j: nat)
    requires SpacedFrom(t0, ts, m) && i < j < |ts|
    ensures (j - i) * m <= ts[j] - ts[i]
    decreases j
  {
    if i == 0 {
      SpacedFromFirst(ts[0], ts[1..], m, j - 1);
    } else {
      SpacedGap(ts[0], ts[1..], m, i - 1, j - 1);
    }
  }

  /** The element at position j of a spaced sequence is at least (j + 1) * m after `t0`. */
  lemma {:induction false} SpacedFromFirst(t0: int, ts: seq<int>, m: int, j: nat)
    requires SpacedFrom(t0, ts, m) && j < |ts|
    ensures (j + 1) * m <= ts[j] - t0
    decreases j
  {
    if j > 0 {
      SpacedFromFirst(ts[0], ts[1..], m, j - 1);
      assert (j + 1) * m == j * m + m;
    }
  }

  /**
   With the default 80 ms minimum interval, the fifth pulse of any run
   completes at least 320 ms after the first.
   */
  lemma {:induction false} FifthPulseScenario(cfg: Config, s: State, ticks: seq<Tick>)
    requires cfg.minIntervalNs == 80_000_000 && TriggerClockMonotone(ticks)
    requires 5 <= |Run(cfg, s, ticks).pulseTimes|
    ensures 320_000_000 <= Run(cfg, s, ticks).pulseTimes[4] - Run(cfg, s, ticks).pulseTimes[0]
  {
    RunRateLimited(cfg, s, ticks);
    SpacedGap(s.lastTriggerNs, Run(cfg, s, ticks).pulseTimes, 80_000_000, 0, 4);
  }

  /** The relay never answers any request with success. */
  ghost predicate ActuatorDead(ticks: seq<Tick>)
  {
    forall i, k: nat :: 0 <= i < |ticks| ==> !ticks[i].respond(k)
  }

  /**
   With a relay that always fails no pulse is ever sent, the trigger time
   never moves and the queue never shrinks.
   */
  lemma {:induction false} DeadActuatorKeepsCredit(cfg: Config, s: State, ticks: seq<Tick>)
    requires ActuatorDead(ticks)
    ensures var tr := Run(cfg, s, ticks);
      && tr.pulseTimes == []
      && tr.final.sent == s.sent
      && tr.final.lastTriggerNs == s.lastTriggerNs
      && s.queue <= tr.final.queue
    decreases |ticks|
  {
    if |ticks| > 0 {
      var st := Iteration(cfg, s, ticks[0]);
      assert !Trigger(cfg.retries, cfg.retryDelayNs, ticks[0].respond).ok;
      assert ActuatorDead(ticks[1..]) by {
        forall i, k: nat | 0 <= i < |ticks[1..]|
          ensures !ticks[1..][i].respond(k)
        {
          assert ticks[1..][i] == ticks[i + 1];
        }
      }
      DeadActuatorKeepsCredit(cfg, st.state, ticks[1..]);
    }
  }

  /** A run during which the bus is never reachable changes no energy or pulse state. */
  lemma {:induction false} OutageChangesNothing(cfg: Config, s: State, ticks: seq<Tick>)
    requires forall i :: 0 <= i < |ticks| ==> !ticks[i].connected
    ensures var tr := Run(cfg, s, ticks);
      && tr.final.energyWms == s.energyWms
      && tr.final.queue == s.queue
      && tr.final.sent == s.sent
      && tr.final.lastTriggerNs == s.lastTriggerNs
      && tr.creditedWms == 0
    decreases |ticks|
  {
    if |ticks| > 0 {
      assert forall i :: 0 <= i < |ticks[1..]| ==> !ticks[1..][i].connected by {
        forall i | 0 <= i < |ticks[1..]| ensures !ticks[1..][i].connected {
          assert ticks[1..][i] == ticks[i + 1];
        }
      }
      OutageChangesNothing(cfg, Iteration(cfg, s, ticks[0]).state, ticks[1..]);
    }
  }

  /**
   With a zero quantum (more than 3_600_000_000 pulses per kWh) the first
   energy reading faults every iteration, so nothing is ever queued or sent.
   */
  lemma {:induction false} ZeroQuantumNeverPulses(cfg: Config, s: State, ticks: seq<Tick>)
    requires Quantum(cfg.impPerKwh) == 0 && s.queue == 0
    ensures Run(cfg, s, ticks).pulseTimes == []
    ensures Run(cfg, s, ticks).final.queue == 0
    decreases |ticks|
  {
    if |ticks| > 0 {
      var st := Iteration(cfg, s, ticks[0]);
      assert st.state.queue == 0;
      ZeroQuantumNeverPulses(cfg, st.state, ticks[1..]);
    }
  }
}
